=== FILE: README.md ===
# Locale-aware currency formatter — Dafny model

This project models the formatting engine of a Go currency library (`formatter.go`). The engine renders an amount and its currency code as text for a locale, in six steps:

- It picks the positive or negative sub-pattern of the locale's pattern.
- It formats the magnitude: it resolves the fraction-digit bounds, where the sentinel 255 means the currency's own digit count. It then groups the integer digits, trims and re-pads the fraction, adds the decimal separator only when a fraction remains, and localises the digit glyphs.
- It resolves the currency text: a symbol-map override or the metadata symbol, the code, or nothing.
- It fills the placeholders `0.00`, `¤`, `+` and `-` in one left-to-right pass.
- It trims surrounding whitespace when the currency text is empty.
- `NewFormatter` applies its defaults and the "en-US" to "en" equivalence.

Modules:

- `Strings` holds the parts of Go's `strings` package the engine uses (Split, Join, TrimRight, Repeat, TrimSpace). Each is characterised by its contract, together with a lemma where the contract alone does not pin the result down (`JoinSeparated` for Join, `TrimSpaceOnlyEnds` for TrimSpace). The module also holds the digit predicates and two helpers that the properties use: `RemoveAll` removes every occurrence of a separator, and `KeepDigits` keeps only the ASCII digits.
- `Types` holds the records: the locale rule set (`CurrencyFormat`), the `Formatter` options, the `Amount` as the engine consumes it, and the `Collaborators` whose lookups are not modelled.
- `Localize` holds the digit-glyph tables and `localizeDigits`, with an inverse.
- `Grouping` holds `groupMajorDigits`. It has a reference definition of the groups, and the source's two loops as methods proved equal to it.
- `Pattern` holds `getPattern` and the placeholder substitution. It also reads a pattern as segments: literal characters and number, currency and sign slots.
- `NumberFormat` holds `formatNumber`.
- `CurrencyFormatter` holds `NewFormatter`, `formatCurrency` and `Format`.
- `Scenarios` holds worked renderings with an "en"-like rule set.

The grouping follows the grouping rules of Unicode UTS #35 (LDML) Part 3 "Numbers", section 3 (Number Format Patterns). There, the primary size applies to the rightmost group and the secondary size to every group to its left.

## Model

| member | source | states |
|---|---|---|
| Strings.Split | formatter.go:123 | The pieces contain no separator, joining them with the separator gives the input back, and there is always at least one piece. |
| Strings.Join | formatter.go:217 | An empty list joins to the empty text. The result starts with the first part. Joining with an empty separator is plain concatenation. For a one-character separator, Split undoes a join of separator-free parts (Strings.SplitUnique). |
| Strings.JoinSeparated | formatter.go:217 | The joined text is the first part, followed by every later part in order, each preceded by the separator. |
| Strings.JoinLength | formatter.go:217 | The joined text is as long as all parts together plus one separator for each pair of neighbours. |
| Strings.SplitUnique | formatter.go:123 | The pieces of a split are the only list of separator-free pieces that join back to the input. |
| Strings.TrimTrailingZeros | formatter.go:152 | The result is a prefix of the input. Everything cut off is '0'. The result is empty or does not end in '0'. |
| Strings.Zeros | formatter.go:156 | strings.Repeat("0", n) gives exactly n characters, all '0'. |
| Strings.TrimSpace | formatter.go:112-116 | The result has no space character at either end. It is no longer than the input. Text that already has no space at its ends is returned unchanged. |
| Strings.TrimSpaceOnlyEnds | formatter.go:112-116 | Only space characters are removed, and only at the two ends. The result is the text of the input that starts after its leading spaces, and only spaces follow it in the input. |
| Localize.DigitTable | formatter.go:26-33 | Every numbering system other than Latin has a table of exactly ten glyphs. |
| Localize.LocalizeChar | formatter.go:227-233 | An ASCII digit d becomes glyph d of the system's table. Any other character, and every character under Latin, is unchanged. A non-Latin result is never an ASCII digit. |
| Localize.LocalizeDigits | formatter.go:222-236 | Identity for Latin. Otherwise the length is preserved and each character is localised on its own. The output of a non-Latin system contains no ASCII digit. |
| Localize.DelocalizeLocalize | formatter.go:222-236 | Mapping the glyphs back gives the original text when that text held no glyph of the system. |
| Localize.LocalizeDelocalize | formatter.go:222-236 | Conversely, localising the de-localised text gives back any text free of ASCII digits. |
| Grouping.SecondaryGroups | formatter.go:206-212 | The digits left of the primary group are cut from the right into groups of the secondary size. The groups concatenate back to those digits. The leftmost group has 1 to secondary-size digits and every other group exactly the secondary size. |
| Grouping.Groups | formatter.go:204-216 | The groups in reading order cover the digits exactly. The last group has the primary size. Every middle group has the secondary size. The first group, when there are several, has between 1 and the secondary size. |
| Grouping.GroupMajorDigits | formatter.go:190-220 | The input is returned unchanged when grouping is off, when the primary size is 0, or when there are fewer than minGroupingDigits + primaryGroupingSize digits. Otherwise the output is the groups joined by the grouping separator. The secondary size must be positive only when digits remain left of the primary group. |
| Grouping.GroupMajorDigitsLoop | formatter.go:190-220 | The source's procedure computes exactly the reference grouping: early returns, the collecting loop, the in-place reversal, then the join. |
| Grouping.CollectGroups | formatter.go:204-212 | The collecting loop produces the reading-order groups in reverse: the primary group first, then secondary groups moving left. |
| Grouping.ReverseGroups | formatter.go:213-216 | The swap loop reverses the group list. |
| Grouping.RemoveSeparatorFromJoin | formatter.go:217 | Removing a digit-free separator from digit groups joined by it gives their concatenation back. |
| Grouping.GroupingLossless | formatter.go:190-220 | Grouping is lossless whether or not it applies. Removing the digit-free grouping separator from the output gives the input digits back, and so does keeping only the output's digits. |
| Pattern.GetPattern | formatter.go:122-131 | A non-negative amount gets the text before the first ';'. A negative amount gets "-" followed by the whole pattern when there is no ';', and otherwise the text between the first ';' and the next ';' or the end. |
| Pattern.Tokenize | formatter.go:104-111 | Reading a pattern never leaves a currency, plus or minus placeholder as a literal character. |
| Pattern.UntokenizeTokenize | formatter.go:104-111 | Reading a pattern into segments loses nothing: writing the segments back gives the pattern. |
| Pattern.NumberPlaceholderFirst | formatter.go:104-111 | The scan is leftmost: a pattern that starts with "0.00" is read as the number slot first, and reading continues after those four characters. |
| Pattern.NumberPlaceholderIsSlot | formatter.go:104-105 | Every "0.00" in a pattern is read as the number slot. No four consecutive literal segments spell it. |
| Pattern.Substitute | formatter.go:104-111 | The one-pass substitution equals filling the slots of the tokenized pattern. Each replacement text is inserted verbatim and is never rescanned for placeholders. |
| Pattern.SubstituteLiteral | formatter.go:104-111 | A pattern with no placeholder character (and no '0') comes out unchanged. |
| Pattern.Replace | formatter.go:110-111 | The left-to-right replacer loop produces the slot-filled pattern. |
| NumberFormat.EffectiveDigits | formatter.go:135-142 | The sentinel 255 is replaced by the currency's digit count. Every other setting is kept. |
| NumberFormat.IntegerPart | formatter.go:144-149 | The integer part is the text before the first '.', or the whole string when it has none. |
| NumberFormat.FractionPart | formatter.go:144-149 | Without a '.', the fraction part is empty. Otherwise it is the text after the first '.', up to the next '.' or the end. |
| NumberFormat.DecimalParts | formatter.go:144-149 | For a string of the form digits or digits.digits, the integer and fraction parts are the digit runs on either side of the point. With no point, the fraction is empty. |
| NumberFormat.FractionDigits | formatter.go:150-158 | When min >= max, the rounded fraction is kept as is. When min < max, the result is the zero-trimmed fraction followed by '0's up to length max(trimmed, min), and it never ends in '0' past position min. |
| NumberFormat.NumberText | formatter.go:159-164 | The text always starts with the grouped integer part. It equals that part exactly when the fraction is empty. Otherwise the decimal separator and the fraction follow. |
| NumberFormat.FormatNumber | formatter.go:134-168 | Under a non-Latin numbering system the formatted number contains no ASCII digit. |
| NumberFormat.FormatNumberDigits | formatter.go:134-168 | formatNumber is lossless on a plain decimal string when the separators contain no digits or glyphs. Mapping glyphs back and keeping only the digits yields the integer digits followed by the trimmed/padded fraction, with the bounds resolved from the sentinel. |
| CurrencyFormatter.NormalizeLocale | formatter.go:65-70 | "en-US" is looked up as "en". Every other locale is looked up as itself. |
| CurrencyFormatter.NewFormatter | formatter.go:61-87 | A new formatter keeps the requested locale and binds the rule set of the normalised locale. Its defaults are grouping on, MinDigits = 255, MaxDigits = 6, symbol display and an empty symbol map. |
| CurrencyFormatter.EnUSBindsEn | formatter.go:65-70 | Formatters for "en-US" and "en" bind the same rule set. The "en-US" one still reports "en-US" as its locale. |
| CurrencyFormatter.FormatCurrency | formatter.go:171-187 | Symbol display returns the SymbolMap entry when the code is a key, and otherwise the metadata symbol for the requested locale. Code display returns the code. Every other display value returns "". |
| CurrencyFormatter.Magnitude | formatter.go:97-100 | The amount that gets formatted is never negative and has the same currency code and digits. |
| CurrencyFormatter.Format | formatter.go:95-119 | The result is the chosen sub-pattern with its slots filled by the number, currency and sign texts. It is trimmed when the currency text is empty, and then has no leading or trailing whitespace. |
| CurrencyFormatter.NegationKeepsNumber | formatter.go:96-102 | An amount and its negation get identical number text and currency text. The sign only selects the sub-pattern. |
| CurrencyFormatter.DisplayKeepsNumber | formatter.go:101-102 | The currency display option never changes the number text. |
| CurrencyFormatter.NegativeIsMinusThenPositive | formatter.go:122-131 | Take a pattern without ';' and a visible currency. A negative amount then renders as the locale minus glyph followed by the rendering of its positive counterpart. |
| Types.Negate | formatter.go:99 | Multiplying by -1 flips the sign and keeps the currency code and the magnitude. |
| Scenarios.FractionScenarios | formatter.go:150-158 | With bounds 0..2, "00" shows no fraction and "50" shows "5". With bounds 2..6, "500000" shows "50". With min 4 > max 2, "5" stays "5". |
| Scenarios.DefaultNumber | formatter.go:134-168 | 1234.5 in a two-digit currency under the default options, rounded to "1234.500000", formats as "1,234.50". |
| Scenarios.DefaultRendering | formatter.go:95-119 | 1234.5 USD renders as "$1,234.50" with default options and as "USD1,234.50" with code display. |

## Left out

- Amount arithmetic (`IsNegative`, `Mul`, `RoundTo`, `Number`) is not modelled. An amount is its sign, its code and `number(n)`: the decimal string of its magnitude rounded to n fraction digits. The rounding mode belongs to that collaborator.
- The locale data table, `GetDigits` and `GetSymbol` are not part of this model. They are function parameters: `resolve`, `digitsOf` and `symbolOf`. An unknown currency's digit count is whatever `digitsOf` returns.
- The parent-chain fallback loop of `NewFormatter` (formatter.go:71-81) is folded into `resolve`, which receives the normalised locale. Its termination depends on a parent chain that is not modelled. Locale parsing, `String`, `GetParent` and `IsEmpty` are not modelled either. A locale is its language and region.
- The `Locale()` accessor is plain field access (`f.locale`). NewFormatter's contract states that the field keeps the requested locale.
- The whitespace set of `strings.TrimSpace` is an abstract predicate, `isSpace`.
- A secondary grouping size of 0 with digits left of the primary group makes the source loop forever. That case is excluded by the precondition `Grouping.Terminates`.
- The numbering-system constants are not part of this model. Only the seven systems that appear in formatter.go are represented: Latin and the six with glyph tables.
- Go strings are byte sequences; the model uses character sequences. The digit strings and placeholders are ASCII except '¤'. No placeholder byte can occur inside another UTF-8 character, so the byte-wise replacers and the character-wise scans agree.
- The formatter's mutable options are fields of an immutable record; a caller changes an option by building an updated record. Concurrent mutation is out of scope.
- `Format` trims whitespace only at the two ends of the whole result. The comment at formatter.go:113-114 explains the trim by the space that many patterns put between the number and the currency. A space inside the result, which a pattern such as "0.00 ¤ +" would leave, is kept, as in the code.
- NumberFormat.FormatNumber: its own contract only states the absence of ASCII digits under non-Latin systems. Its full meaning is stated by `NumberFormat.FormatNumberDigits` and by the contracts of the functions it composes.
- Pattern.SubstituteLiteral: stated only for patterns without any '0', which is a sufficient condition rather than the exact absence of "0.00".

=== FILE: formatter.dfy ===
/** The formatter's public surface: construction with its defaults, the
    currency display, and Format, which fills the chosen sub-pattern. */
module CurrencyFormatter {
  import opened Strings
  import opened Types
  import opened Pattern
  import opened NumberFormat

  const EnUS: Locale := Locale("en", "US")
  const En: Locale := Locale("en", "")

  /** "en-US" and "en" are equivalent; the former is looked up as the latter. */
  function NormalizeLocale(locale: Locale): (r: Locale)
    ensures locale == EnUS ==> r == En
    ensures locale != EnUS ==> r == locale
  {
    if locale == EnUS then En else locale
  }

  /** NewFormatter. `resolve` stands for the lookup of a locale's rule set
      along its parent chain, which yields the zero rule set when nothing
      matches. */
  function NewFormatter(locale: Locale, resolve: Locale -> CurrencyFormat): (f: Formatter)
    ensures f.locale == locale
    ensures f.format == resolve(NormalizeLocale(locale))
    ensures !f.noGrouping
    ensures f.minDigits == DefaultDigits && f.maxDigits == 6
    ensures f.currencyDisplay == DisplaySymbol
    ensures f.symbolMap == map[]
  {
    Formatter(locale, resolve(NormalizeLocale(locale)), false, DefaultDigits, 6, DisplaySymbol, map[])
  }

  /** A formatter for "en-US" keeps the requested locale but binds the rule
      set of "en". */
  lemma EnUSBindsEn(resolve: Locale -> CurrencyFormat)
    ensures NewFormatter(EnUS, resolve).format == NewFormatter(En, resolve).format
    ensures NewFormatter(EnUS, resolve).locale == EnUS
  {
  }

  /** formatCurrency. `symbolOf` is the metadata lookup of a code's symbol in
      the requested locale. */
  function FormatCurrency(f: Formatter, symbolOf: (string, Locale) -> string, code: string): (r: string)
    ensures f.currencyDisplay == DisplaySymbol && code in f.symbolMap ==> r == f.symbolMap[code]
    ensures f.currencyDisplay == DisplaySymbol && code !in f.symbolMap ==> r == symbolOf(code, f.locale)
    ensures f.currencyDisplay == DisplayCode ==> r == code
    ensures f.currencyDisplay != DisplaySymbol && f.currencyDisplay != DisplayCode ==> r == []
  {
    if f.currencyDisplay == DisplaySymbol then
      if code in f.symbolMap then f.symbolMap[code] else symbolOf(code, f.locale)
    else if f.currencyDisplay == DisplayCode then code
    else []
  }

  /** Format can run: grouping of the magnitude's integer part terminates. */
  predicate CanFormat(f: Formatter, env: Collaborators, a: Amount) {
    Formattable(f, env.digitsOf(a.currencyCode), a.number)
  }

  /** The magnitude Format works on: a negative amount is negated first. */
  function Magnitude(a: Amount): (m: Amount)
    ensures !m.negative
    ensures m.currencyCode == a.currencyCode && m.number == a.number
  {
    if a.negative then Negate(a) else a
  }

  /** The number text of an amount: that of its magnitude. */
  function AmountNumber(f: Formatter, env: Collaborators, a: Amount): (r: string)
    requires CanFormat(f, env, a)
  {
    var m := Magnitude(a);
    FormatNumber(f, env.digitsOf(m.currencyCode), m.number)
  }

  /** The currency text of an amount. */
  function AmountCurrency(f: Formatter, env: Collaborators, a: Amount): (r: string) {
    FormatCurrency(f, env.symbolOf, Magnitude(a).currencyCode)
  }

  /** Format: fill the sub-pattern chosen by the sign; trim surrounding
      whitespace when the currency is shown as nothing. */
  function Format(f: Formatter, env: Collaborators, a: Amount): (r: string)
    requires CanFormat(f, env, a)
    ensures
      var filled := Fill(Tokenize(GetPattern(f.format.pattern, a.negative)),
        AmountNumber(f, env, a), AmountCurrency(f, env, a), f.format.plusSign, f.format.minusSign);
      && (AmountCurrency(f, env, a) != [] ==> r == filled)
      && (AmountCurrency(f, env, a) == [] ==> r == TrimSpace(filled, env.isSpace))
    ensures AmountCurrency(f, env, a) == [] ==> NoSpaceEnds(r, env.isSpace)
  {
    var pattern := GetPattern(f.format.pattern, a.negative);
    var amount := Magnitude(a);
    var formattedNumber := FormatNumber(f, env.digitsOf(amount.currencyCode), amount.number);
    var formattedCurrency := FormatCurrency(f, env.symbolOf, amount.currencyCode);
    var formattedAmount := Substitute(pattern, formattedNumber, formattedCurrency, f.format.plusSign, f.format.minusSign);
    if formattedCurrency == [] then TrimSpace(formattedAmount, env.isSpace) else formattedAmount
  }

  /** The sign only picks the sub-pattern: an amount and its negation are
      filled with the same number and currency text. */
  lemma NegationKeepsNumber(f: Formatter, env: Collaborators, a: Amount)
    requires CanFormat(f, env, a)
    ensures CanFormat(f, env, Negate(a))
    ensures AmountNumber(f, env, Negate(a)) == AmountNumber(f, env, a)
    ensures AmountCurrency(f, env, Negate(a)) == AmountCurrency(f, env, a)
  {
  }

  /** The display options change the currency text only, never the number. */
  lemma DisplayKeepsNumber(f: Formatter, display: Display, env: Collaborators, a: Amount)
    requires CanFormat(f, env, a)
    ensures CanFormat(f.(currencyDisplay := display), env, a)
    ensures AmountNumber(f.(currencyDisplay := display), env, a) == AmountNumber(f, env, a)
  {
  }

  /** With a single sub-pattern and a visible currency, a negative amount
      renders as the minus glyph followed by the positive rendering. */
  lemma NegativeIsMinusThenPositive(f: Formatter, env: Collaborators, a: Amount)
    requires CanFormat(f, env, a)
    requires PatternSeparator !in f.format.pattern
    requires AmountCurrency(f, env, a) != []
    ensures Format(f, env, a.(negative := true)) == f.format.minusSign + Format(f, env, a.(negative := false))
  {
    var neg := a.(negative := true);
    var pos := a.(negative := false);
    var number := AmountNumber(f, env, a);
    var currency := AmountCurrency(f, env, a);
    assert AmountNumber(f, env, neg) == number && AmountNumber(f, env, pos) == number;
    assert AmountCurrency(f, env, neg) == currency && AmountCurrency(f, env, pos) == currency;
    var p := f.format.pattern;
    assert GetPattern(p, true) == [MinusPlaceholder] + p;
    assert GetPattern(p, false) == p by {
      SplitFirst(p, PatternSeparator, Split(p, PatternSeparator));
    }
    assert Format(f, env, neg) == Substitute([MinusPlaceholder] + p, number, currency, f.format.plusSign, f.format.minusSign);
    assert Format(f, env, pos) == Substitute(p, number, currency, f.format.plusSign, f.format.minusSign);
    MinusThenPattern(p, number, currency, f.format.plusSign, f.format.minusSign);
  }

  /** A leading minus placeholder becomes the minus text, followed by the
      substituted rest. */
  lemma MinusThenPattern(p: string, number: string, currency: string, plus: string, minus: string)
    ensures Substitute([MinusPlaceholder] + p, number, currency, plus, minus) == minus + Substitute(p, number, currency, plus, minus)
  {
    var q := [MinusPlaceholder] + p;
    assert q[0] == MinusPlaceholder && q[1..] == p;
    assert NumberPlaceholder[0] != MinusPlaceholder;
  }
}

=== FILE: grouping.dfy ===
/** Grouping of the integer digits: a rightmost primary group, then secondary
    groups moving left, joined by the grouping separator (the number-pattern
    grouping rules of Unicode UTS #35 Part 3, section 3). */
module Grouping {
  import opened Strings
  import opened Types

  /** Grouping happens: not switched off, a primary size is set, and there are
      at least minGroupingDigits + primaryGroupingSize digits. */
  predicate Applies(noGrouping: bool, fmt: CurrencyFormat, n: nat) {
    && !noGrouping
    && fmt.primaryGroupingSize != 0
    && n >= fmt.minGroupingDigits + fmt.primaryGroupingSize
  }

  /** Secondary groups are only cut when digits remain left of the primary
      group; then the secondary size must be positive for the cutting to end. */
  predicate Terminates(noGrouping: bool, fmt: CurrencyFormat, n: nat) {
    Applies(noGrouping, fmt, n) && n > fmt.primaryGroupingSize ==> fmt.secondaryGroupingSize > 0
  }

  /** The digits left of the primary group, cut into groups of `size` from
      the right; the leftmost group takes what remains. */
  function SecondaryGroups(digits: string, size: nat): (groups: seq<string>)
    requires |digits| == 0 || size > 0
    ensures Concat(groups) == digits
    ensures |groups| == 0 <==> |digits| == 0
    ensures |groups| > 0 ==> 1 <= |groups[0]| <= size
    ensures forall i :: 1 <= i < |groups| ==> |groups[i]| == size
    decreases |digits|
  {
    if |digits| == 0 then []
    else if |digits| <= size then
      assert Concat([digits]) == digits + Concat([]);
      [digits]
    else
      var left := SecondaryGroups(digits[..|digits| - size], size);
      ConcatAppend(left, digits[|digits| - size..]);
      assert digits == digits[..|digits| - size] + digits[|digits| - size..];
      left + [digits[|digits| - size..]]
  }

  /** All groups in reading order: the secondary groups, then the primary one.
      The last group has exactly the primary size, every middle group the
      secondary size, the first between 1 and the secondary size. */
  function Groups(digits: string, primary: nat, secondary: nat): (groups: seq<string>)
    requires 0 < primary <= |digits|
    requires |digits| == primary || secondary > 0
    ensures Concat(groups) == digits
    ensures |groups| >= 1 && |groups[|groups| - 1]| == primary
    ensures forall i :: 0 < i < |groups| - 1 ==> |groups[i]| == secondary
    ensures |groups| > 1 ==> 1 <= |groups[0]| <= secondary
  {
    var n := |digits|;
    var left := SecondaryGroups(digits[..n - primary], secondary);
    ConcatAppend(left, digits[n - primary..]);
    assert digits == digits[..n - primary] + digits[n - primary..];
    left + [digits[n - primary..]]
  }

  /** groupMajorDigits, as a function over the reference grouping. */
  function GroupMajorDigits(noGrouping: bool, fmt: CurrencyFormat, digits: string): (r: string)
    requires Terminates(noGrouping, fmt, |digits|)
    ensures !Applies(noGrouping, fmt, |digits|) ==> r == digits
    ensures Applies(noGrouping, fmt, |digits|) ==>
      r == Join(Groups(digits, fmt.primaryGroupingSize, fmt.secondaryGroupingSize), fmt.groupingSeparator)
  {
    if !Applies(noGrouping, fmt, |digits|) then digits
    else Join(Groups(digits, fmt.primaryGroupingSize, fmt.secondaryGroupingSize), fmt.groupingSeparator)
  }

  /** Reversal of a group list. */
  function Reverse(xs: seq<string>): (r: seq<string>)
    ensures |r| == |xs|
    ensures forall k :: 0 <= k < |xs| ==> r[k] == xs[|xs| - 1 - k]
  {
    seq(|xs|, k requires 0 <= k < |xs| => xs[|xs| - 1 - k])
  }

  /** groupMajorDigits as written: the primary group first, secondary groups
      appended while moving left, the list reversed in place, then joined. */
  method GroupMajorDigitsLoop(noGrouping: bool, fmt: CurrencyFormat, majorDigits: string) returns (r: string)
    requires Terminates(noGrouping, fmt, |majorDigits|)
    ensures r == GroupMajorDigits(noGrouping, fmt, majorDigits)
  {
    if noGrouping || fmt.primaryGroupingSize == 0 {
      return majorDigits;
    }
    var numDigits := |majorDigits|;
    var minDigits := fmt.minGroupingDigits as int;
    var primarySize := fmt.primaryGroupingSize as int;
    var secondarySize := fmt.secondaryGroupingSize as int;
    if numDigits < minDigits + primarySize {
      return majorDigits;
    }
    var groups := CollectGroups(majorDigits, primarySize, secondarySize);
    groups := ReverseGroups(groups);
    r := Join(groups, fmt.groupingSeparator);
  }

  /** The grouping loop: groups collected right to left, so the result is the
      reading-order grouping reversed. */
  method CollectGroups(digits: string, primary: nat, secondary: nat) returns (groups: seq<string>)
    requires 0 < primary <= |digits|
    requires |digits| == primary || secondary > 0
    ensures Reverse(groups) == Groups(digits, primary, secondary)
  {
    var n := |digits|;
    groups := [digits[n - primary..n]];
    var i: int := n - primary;
    assert digits[n - primary..n] == digits[n - primary..];
    assert Reverse(groups) == groups;
    while i > 0
      invariant i <= n - primary
      invariant i > 0 ==> secondary > 0
      invariant SecondaryGroups(digits[..if i > 0 then i else 0], secondary) + Reverse(groups) == Groups(digits, primary, secondary)
      decreases i
    {
      var low := i - secondary;
      if low < 0 {
        low := 0;
      }
      CollectStep(digits, primary, secondary, i, groups);
      groups := groups + [digits[low..i]];
      i := i - secondary;
    }
  }

  /** One turn of the grouping loop: the group ending at i moves from the
      uncut digits to the collected list. */
  lemma CollectStep(digits: string, primary: nat, secondary: nat, i: nat, groups: seq<string>)
    requires 0 < primary <= |digits|
    requires 0 < i <= |digits| - primary && secondary > 0
    requires SecondaryGroups(digits[..i], secondary) + Reverse(groups) == Groups(digits, primary, secondary)
    ensures var low := if i - secondary < 0 then 0 else i - secondary;
      SecondaryGroups(digits[..low], secondary) + Reverse(groups + [digits[low..i]]) == Groups(digits, primary, secondary)
  {
    var low := if i - secondary < 0 then 0 else i - secondary;
    var group := digits[low..i];
    if low == 0 {
      assert SecondaryGroups(digits[..i], secondary) == [group];
    } else {
      SecondaryGroupsCut(digits, i, secondary);
    }
    assert Reverse(groups + [group]) == [group] + Reverse(groups);
  }

  /** Cutting one more secondary group off the digits before position i. */
  lemma SecondaryGroupsCut(digits: string, i: nat, size: nat)
    requires 0 < size < i <= |digits|
    ensures SecondaryGroups(digits[..i], size)
      == SecondaryGroups(digits[..i - size], size) + [digits[i - size..i]]
  {
    var prefix := digits[..i];
    assert prefix[..i - size] == digits[..i - size];
    assert prefix[i - size..] == digits[i - size..i];
  }

  /** The in-place swap loop that restores reading order. */
  method ReverseGroups(groups: seq<string>) returns (ordered: seq<string>)
    ensures ordered == Reverse(groups)
  {
    var a, b := 0, |groups| - 1;
    ordered := groups;
    while a < b
      invariant 0 <= a && 2 * a <= |groups| && b == |groups| - 1 - a
      invariant |ordered| == |groups|
      invariant forall k :: 0 <= k < a ==> ordered[k] == groups[|groups| - 1 - k]
      invariant forall k :: 0 <= k < a ==> ordered[|groups| - 1 - k] == groups[k]
      invariant forall k :: a <= k <= b ==> ordered[k] == groups[k]
      decreases b - a
    {
      ordered := ordered[a := ordered[b]][b := ordered[a]];
      a, b := a + 1, b - 1;
    }
    forall k | 0 <= k < |groups|
      ensures ordered[k] == groups[|groups| - 1 - k]
    {
      if k > b {
        assert ordered[|groups| - 1 - (|groups| - 1 - k)] == groups[|groups| - 1 - k];
      }
    }
  }

  /** Joining digit groups with a digit-free separator and then removing the
      separator gives the concatenated groups back. */
  lemma {:induction false} RemoveSeparatorFromJoin(groups: seq<string>, sep: string)
    requires forall i :: 0 <= i < |groups| ==> AllDigits(groups[i])
    requires NoDigits(sep)
    ensures RemoveAll(Join(groups, sep), sep) == Concat(groups)
    decreases |groups|
  {
    if |groups| == 0 {
    } else if |groups| == 1 {
      RemoveAllDigitPrefix(groups[0], [], sep);
      assert groups[0] + [] == groups[0];
      assert Concat(groups) == groups[0] + Concat([]);
    } else {
      var rest := Join(groups[1..], sep);
      assert Join(groups, sep) == groups[0] + (sep + rest);
      RemoveAllDigitPrefix(groups[0], sep + rest, sep);
      RemoveLeadingSeparator(sep, rest);
      TailAllDigits(groups);
      RemoveSeparatorFromJoin(groups[1..], sep);
      assert Concat(groups) == groups[0] + Concat(groups[1..]);
    }
  }

  /** A leading separator is removed as a whole. */
  lemma RemoveLeadingSeparator(sep: string, rest: string)
    ensures RemoveAll(sep + rest, sep) == RemoveAll(rest, sep)
  {
    if |sep| > 0 {
      assert sep <= sep + rest;
      assert (sep + rest)[|sep|..] == rest;
    }
  }

  /** The groups after the first are digit groups too. */
  lemma TailAllDigits(groups: seq<string>)
    requires |groups| > 0
    requires forall i :: 0 <= i < |groups| ==> AllDigits(groups[i])
    ensures forall i :: 0 <= i < |groups[1..]| ==> AllDigits(groups[1..][i])
  {
    forall i | 0 <= i < |groups[1..]|
      ensures AllDigits(groups[1..][i])
    {
      assert groups[1..][i] == groups[i + 1];
    }
  }

  /** Likewise, keeping only the digits of the joined groups gives the
      concatenated groups back. */
  lemma {:induction false} KeepDigitsOfJoin(groups: seq<string>, sep: string)
    requires forall i :: 0 <= i < |groups| ==> AllDigits(groups[i])
    requires NoDigits(sep)
    ensures KeepDigits(Join(groups, sep)) == Concat(groups)
    decreases |groups|
  {
    if |groups| == 0 {
    } else if |groups| == 1 {
      KeepDigitsOfDigits(groups[0]);
      assert Concat(groups) == groups[0] + Concat([]);
    } else {
      var rest := Join(groups[1..], sep);
      assert Join(groups, sep) == (groups[0] + sep) + rest;
      KeepDigitsAppend(groups[0] + sep, rest);
      KeepDigitsAppend(groups[0], sep);
      KeepDigitsOfDigits(groups[0]);
      KeepDigitsOfNoDigits(sep);
      assert KeepDigits(groups[0] + sep) == groups[0];
      TailAllDigits(groups);
      KeepDigitsOfJoin(groups[1..], sep);
      assert Concat(groups) == groups[0] + Concat(groups[1..]);
    }
  }

  /** Grouping is lossless: removing the (digit-free) grouping separator from
      the output gives back the input digits, grouped or not. */
  lemma GroupingLossless(noGrouping: bool, fmt: CurrencyFormat, digits: string)
    requires Terminates(noGrouping, fmt, |digits|)
    requires AllDigits(digits)
    requires NoDigits(fmt.groupingSeparator)
    ensures RemoveAll(GroupMajorDigits(noGrouping, fmt, digits), fmt.groupingSeparator) == digits
    ensures KeepDigits(GroupMajorDigits(noGrouping, fmt, digits)) == digits
  {
    var sep := fmt.groupingSeparator;
    if Applies(noGrouping, fmt, |digits|) {
      var groups := Groups(digits, fmt.primaryGroupingSize, fmt.secondaryGroupingSize);
      ConcatAllDigits(groups);
      RemoveSeparatorFromJoin(groups, sep);
      KeepDigitsOfJoin(groups, sep);
    } else {
      RemoveAllDigitPrefix(digits, [], sep);
      assert digits + [] == digits;
      KeepDigitsOfDigits(digits);
    }
  }
}

=== FILE: localize.dfy ===
/** Digit localisation: ASCII digits are replaced by the glyphs of the rule
    set's numbering system. Each glyph table is ten consecutive code points
    starting at the system's zero glyph. */
module Localize {
  import opened Strings
  import opened Types

  /** Code point of the zero glyph of a system that has a table. */
  function ZeroGlyph(ns: NumberingSystem): (z: int)
    requires ns != Latn
    ensures 0x660 <= z && z + 10 <= 0x1050
  {
    match ns
    case Arab => 0x0660
    case ArabExt => 0x06F0
    case Beng => 0x09E6
    case Deva => 0x0966
    case Mymr => 0x1040
    case Tibt => 0x0F20
  }

  /** The ten-glyph table of `ns`, glyph `d` standing for digit `d`. */
  function DigitTable(ns: NumberingSystem): (t: string)
    requires ns != Latn
    ensures |t| == 10
  {
    seq(10, d requires 0 <= d < 10 => (ZeroGlyph(ns) + d) as char)
  }

  /** Whether `c` is one of the glyphs of `ns` (never for Latin). */
  predicate IsGlyph(ns: NumberingSystem, c: char) {
    ns != Latn && ZeroGlyph(ns) <= c as int < ZeroGlyph(ns) + 10
  }

  predicate NoGlyphs(ns: NumberingSystem, s: string) {
    forall i :: 0 <= i < |s| ==> !IsGlyph(ns, s[i])
  }

  /** One character of localizeDigits: a digit becomes its glyph, anything
      else is left as it is. */
  function LocalizeChar(ns: NumberingSystem, c: char): (g: char)
    ensures !IsAsciiDigit(c) || ns == Latn ==> g == c
    ensures IsAsciiDigit(c) && ns != Latn ==> IsGlyph(ns, g) && g as int - ZeroGlyph(ns) == c as int - '0' as int
    ensures ns != Latn ==> !IsAsciiDigit(g)
  {
    if ns == Latn || !IsAsciiDigit(c) then c
    else DigitTable(ns)[c as int - '0' as int]
  }

  /** Inverse of LocalizeChar: glyph `d` of `ns` back to ASCII digit `d`. */
  function DelocalizeChar(ns: NumberingSystem, c: char): (d: char) {
    if IsGlyph(ns, c) then ('0' as int + (c as int - ZeroGlyph(ns))) as char else c
  }

  /** localizeDigits: the identity for Latin; otherwise every ASCII digit is
      replaced by its glyph and every other character is kept. */
  function LocalizeDigits(ns: NumberingSystem, s: string): (r: string)
    ensures |r| == |s|
    ensures ns == Latn ==> r == s
    ensures forall i :: 0 <= i < |s| ==> r[i] == LocalizeChar(ns, s[i])
    ensures ns != Latn ==> NoDigits(r)
    decreases |s|
  {
    if ns == Latn || |s| == 0 then s
    else [LocalizeChar(ns, s[0])] + LocalizeDigits(ns, s[1..])
  }

  /** Maps glyphs of `ns` back to ASCII digits, character by character. */
  function DelocalizeDigits(ns: NumberingSystem, s: string): (r: string)
    decreases |s|
  {
    if |s| == 0 then s
    else [DelocalizeChar(ns, s[0])] + DelocalizeDigits(ns, s[1..])
  }

  /** Localisation loses nothing: text without glyphs of its own comes back. */
  lemma {:induction false} DelocalizeLocalize(ns: NumberingSystem, s: string)
    requires NoGlyphs(ns, s)
    ensures DelocalizeDigits(ns, LocalizeDigits(ns, s)) == s
    decreases |s|
  {
    if |s| > 0 {
      var r := LocalizeDigits(ns, s);
      assert r[1..] == LocalizeDigits(ns, s[1..]) by {
        if ns == Latn {
          assert r == s;
        }
      }
      assert DelocalizeChar(ns, r[0]) == s[0];
      DelocalizeLocalize(ns, s[1..]);
    }
  }

  /** And in the other direction: text without ASCII digits comes back. */
  lemma {:induction false} LocalizeDelocalize(ns: NumberingSystem, s: string)
    requires NoDigits(s)
    ensures LocalizeDigits(ns, DelocalizeDigits(ns, s)) == s
    decreases |s|
  {
    if |s| > 0 {
      var d := DelocalizeDigits(ns, s);
      LocalizeDelocalize(ns, s[1..]);
      if ns == Latn {
        assert d == [s[0]] + DelocalizeDigits(ns, s[1..]);
      }
    }
  }
}

=== FILE: number.dfy ===
/** formatNumber: resolving the fraction-digit bounds, grouping the integer
    part, trimming and re-padding the fraction, adding the decimal separator,
    and localising the digits. */
module NumberFormat {
  import opened Strings
  import opened Types
  import Grouping
  import opened Localize

  /** The DefaultDigits sentinel stands for the currency's own digit count. */
  function EffectiveDigits(setting: Byte, currencyDigits: Byte): (d: Byte)
    ensures setting != DefaultDigits ==> d == setting
    ensures setting == DefaultDigits ==> d == currencyDigits
  {
    if setting == DefaultDigits then currencyDigits else setting
  }

  /** The integer part of a decimal string: the text before the first '.'. */
  function IntegerPart(number: string): (r: string)
    ensures r <= number && '.' !in r
    ensures |r| == |number| || number[|r|] == '.'
  {
    var parts := Split(number, '.');
    SplitFirst(number, '.', parts);
    parts[0]
  }

  /** The fraction part: the text after the first '.' and before any second
      one, or empty when there is no '.'. */
  function FractionPart(number: string): (r: string)
    ensures '.' !in number ==> r == []
    ensures '.' in number ==>
      var k := IndexOf(number, '.') + 1;
      && r <= number[k..] && '.' !in r
      && (k + |r| == |number| || number[k + |r|] == '.')
  {
    var parts := Split(number, '.');
    SplitFirst(number, '.', parts);
    if |parts| == 1 then []
    else
      SplitSecond(number, '.', parts);
      parts[1]
  }

  /** A plain decimal string: digits, optionally '.' and more digits. */
  predicate IsDecimal(number: string) {
    '.' in number ==>
      var k := IndexOf(number, '.');
      AllDigits(number[..k]) && AllDigits(number[k + 1..])
  }

  /** For a plain decimal string the two parts are the digits either side of
      the point, and they are all digits. */
  lemma DecimalParts(number: string)
    requires IsDecimal(number)
    requires '.' in number || AllDigits(number)
    ensures AllDigits(IntegerPart(number)) && AllDigits(FractionPart(number))
    ensures '.' !in number ==> IntegerPart(number) == number && FractionPart(number) == []
    ensures '.' in number ==>
      IntegerPart(number) + "." + FractionPart(number) == number
  {
    var parts := Split(number, '.');
    if |parts| > 1 {
      var k := IndexOf(number, '.');
      var rest := Join(parts[1..], ['.']);
      assert number == parts[0] + ['.'] + rest;
      assert number[k] == '.';
      assert |parts[0]| == k by {
        assert number[|parts[0]|] == '.';
        assert number[..|parts[0]|] == parts[0];
      }
      assert number[k + 1..] == rest;
      assert '.' !in rest by {
        assert AllDigits(rest);
      }
      SplitUnique(rest, '.', parts[1..]);
    }
  }

  /** The fraction as shown: with min < max, trailing zeros are stripped and
      zeros are re-added up to min; otherwise it is left as rounded. */
  function FractionDigits(minor: string, minDigits: Byte, maxDigits: Byte): (r: string)
    ensures minDigits >= maxDigits ==> r == minor
    ensures minDigits < maxDigits ==>
      var t := TrimTrailingZeros(minor);
      && |r| == Max(|t|, minDigits)
      && r[..|t|] == t
      && (forall i :: |t| <= i < |r| ==> r[i] == '0')
      && (|r| > minDigits ==> r[|r| - 1] != '0')
  {
    if minDigits < maxDigits then
      var t := TrimTrailingZeros(minor);
      if |t| < minDigits then t + Zeros(minDigits - |t|) else t
    else minor
  }

  /** A fraction built from digits is digits. */
  lemma FractionDigitsAreDigits(minor: string, minDigits: Byte, maxDigits: Byte)
    requires AllDigits(minor)
    ensures AllDigits(FractionDigits(minor, minDigits, maxDigits))
  {
    var t := TrimTrailingZeros(minor);
    assert forall i :: 0 <= i < |t| ==> t[i] == minor[i];
  }

  /** The number text: the grouped integer part, then the decimal separator
      and the fraction exactly when the fraction is non-empty. */
  function NumberText(major: string, minor: string, decimalSeparator: string): (r: string)
    ensures major <= r
    ensures r == major <==> minor == []
    ensures minor != [] ==> r[|major|..] == decimalSeparator + minor
  {
    if minor != [] then
      assert (major + decimalSeparator + minor)[|major|..] == decimalSeparator + minor;
      major + decimalSeparator + minor
    else major
  }

  /** Grouping terminates for the integer part this formatter will see. */
  predicate Formattable(f: Formatter, currencyDigits: Byte, number: Byte -> string) {
    var maxDigits := EffectiveDigits(f.maxDigits, currencyDigits);
    Grouping.Terminates(f.noGrouping, f.format, |IntegerPart(number(maxDigits))|)
  }

  /** formatNumber. `currencyDigits` is the currency's default digit count and
      `number(n)` the amount's decimal string rounded to n fraction digits. */
  function FormatNumber(f: Formatter, currencyDigits: Byte, number: Byte -> string): (r: string)
    requires Formattable(f, currencyDigits, number)
    ensures f.format.numberingSystem != Latn ==> NoDigits(r)
  {
    var minDigits := EffectiveDigits(f.minDigits, currencyDigits);
    var maxDigits := EffectiveDigits(f.maxDigits, currencyDigits);
    var rounded := number(maxDigits);
    var major := Grouping.GroupMajorDigits(f.noGrouping, f.format, IntegerPart(rounded));
    var minor := FractionDigits(FractionPart(rounded), minDigits, maxDigits);
    LocalizeDigits(f.format.numberingSystem, NumberText(major, minor, f.format.decimalSeparator))
  }

  /** formatNumber is lossless: mapping the glyphs back and keeping only the
      digits yields the integer digits followed by the shown fraction, when
      the separators hold neither digits nor glyphs. */
  lemma FormatNumberDigits(f: Formatter, currencyDigits: Byte, number: Byte -> string)
    requires Formattable(f, currencyDigits, number)
    requires var rounded := number(EffectiveDigits(f.maxDigits, currencyDigits));
      IsDecimal(rounded) && ('.' in rounded || AllDigits(rounded))
    requires NoDigits(f.format.groupingSeparator) && NoDigits(f.format.decimalSeparator)
    requires NoGlyphs(f.format.numberingSystem, f.format.groupingSeparator)
    requires NoGlyphs(f.format.numberingSystem, f.format.decimalSeparator)
    ensures
      var minDigits := EffectiveDigits(f.minDigits, currencyDigits);
      var maxDigits := EffectiveDigits(f.maxDigits, currencyDigits);
      var rounded := number(maxDigits);
      KeepDigits(DelocalizeDigits(f.format.numberingSystem, FormatNumber(f, currencyDigits, number)))
        == IntegerPart(rounded) + FractionDigits(FractionPart(rounded), minDigits, maxDigits)
  {
    var ns := f.format.numberingSystem;
    var minDigits := EffectiveDigits(f.minDigits, currencyDigits);
    var maxDigits := EffectiveDigits(f.maxDigits, currencyDigits);
    var rounded := number(maxDigits);
    DecimalParts(rounded);
    var major := Grouping.GroupMajorDigits(f.noGrouping, f.format, IntegerPart(rounded));
    var minor := FractionDigits(FractionPart(rounded), minDigits, maxDigits);
    var text := NumberText(major, minor, f.format.decimalSeparator);
    assert FormatNumber(f, currencyDigits, number) == LocalizeDigits(ns, text);
    FractionDigitsAreDigits(FractionPart(rounded), minDigits, maxDigits);
    Grouping.GroupingLossless(f.noGrouping, f.format, IntegerPart(rounded));
    GroupedHasNoGlyphs(f, IntegerPart(rounded));
    NumberTextNoGlyphs(ns, major, minor, f.format.decimalSeparator);
    DelocalizeLocalize(ns, text);
    NumberTextDigits(major, minor, f.format.decimalSeparator);
  }

  /** The digits of the number text are those of the integer part, then the
      fraction. */
  lemma NumberTextDigits(major: string, minor: string, sep: string)
    requires AllDigits(minor) && NoDigits(sep)
    ensures KeepDigits(NumberText(major, minor, sep)) == KeepDigits(major) + minor
  {
    if minor != [] {
      assert NumberText(major, minor, sep) == (major + sep) + minor;
      KeepDigitsAppend(major, sep);
      KeepDigitsOfNoDigits(sep);
      assert KeepDigits(major + sep) == KeepDigits(major);
      KeepDigitsAppend(major + sep, minor);
      KeepDigitsOfDigits(minor);
    }
  }

  lemma NumberTextNoGlyphs(ns: NumberingSystem, major: string, minor: string, sep: string)
    requires NoGlyphs(ns, major) && AllDigits(minor) && NoGlyphs(ns, sep)
    ensures NoGlyphs(ns, NumberText(major, minor, sep))
  {
    if minor != [] {
      NoGlyphsOfDigits(ns, minor);
      NoGlyphsAppend(ns, major, sep);
      NoGlyphsAppend(ns, major + sep, minor);
    }
  }

  lemma NoGlyphsOfDigits(ns: NumberingSystem, s: string)
    requires AllDigits(s)
    ensures NoGlyphs(ns, s)
  {
    if ns != Latn {
      assert ZeroGlyph(ns) >= 0x660;
    }
  }

  lemma NoGlyphsAppend(ns: NumberingSystem, a: string, b: string)
    requires NoGlyphs(ns, a) && NoGlyphs(ns, b)
    ensures NoGlyphs(ns, a + b)
  {
    forall i | 0 <= i < |a + b|
      ensures !IsGlyph(ns, (a + b)[i])
    {
      if i >= |a| {
        assert (a + b)[i] == b[i - |a|];
      }
    }
  }

  /** The grouped text is made of digits and separators, so of no glyphs. */
  lemma GroupedHasNoGlyphs(f: Formatter, digits: string)
    requires Grouping.Terminates(f.noGrouping, f.format, |digits|)
    requires AllDigits(digits)
    requires NoGlyphs(f.format.numberingSystem, f.format.groupingSeparator)
    ensures NoGlyphs(f.format.numberingSystem, Grouping.GroupMajorDigits(f.noGrouping, f.format, digits))
  {
    if Grouping.Applies(f.noGrouping, f.format, |digits|) {
      var groups := Grouping.Groups(digits, f.format.primaryGroupingSize, f.format.secondaryGroupingSize);
      ConcatAllDigits(groups);
      JoinNoGlyphs(f.format.numberingSystem, groups, f.format.groupingSeparator);
    } else {
      NoGlyphsOfDigits(f.format.numberingSystem, digits);
    }
  }

  lemma {:induction false} JoinNoGlyphs(ns: NumberingSystem, parts: seq<string>, sep: string)
    requires forall i :: 0 <= i < |parts| ==> AllDigits(parts[i])
    requires NoGlyphs(ns, sep)
    ensures NoGlyphs(ns, Join(parts, sep))
    decreases |parts|
  {
    if |parts| == 1 {
      NoGlyphsOfDigits(ns, parts[0]);
    } else if |parts| > 1 {
      NoGlyphsOfDigits(ns, parts[0]);
      JoinNoGlyphs(ns, parts[1..], sep);
      NoGlyphsAppend(ns, parts[0], sep);
      NoGlyphsAppend(ns, parts[0] + sep, Join(parts[1..], sep));
    }
  }
}

=== FILE: pattern.dfy ===
/** Patterns: choosing the positive or negative sub-pattern, and filling its
    placeholders ("0.00" for the number, '¤' for the currency, '+' and '-'
    for the locale's sign glyphs) in one left-to-right pass. */
module Pattern {
  import opened Strings

  const NumberPlaceholder: string := "0.00"
  const CurrencyPlaceholder: char := '¤'
  const PlusPlaceholder: char := '+'
  const MinusPlaceholder: char := '-'
  const PatternSeparator: char := ';'

  /** getPattern: sub-pattern 0 for a non-negative amount; for a negative one
      sub-pattern 1, or "-" + sub-pattern 0 when there is no second one. */
  function GetPattern(pattern: string, negative: bool): (r: string)
    // The positive sub-pattern runs from the start up to the first ';' or the end.
    ensures !negative ==> r <= pattern && PatternSeparator !in r
    ensures !negative ==> |r| == |pattern| || pattern[|r|] == PatternSeparator
    // Without a ';', the negative sub-pattern is the whole pattern after a '-'.
    ensures negative && PatternSeparator !in pattern ==> r == [MinusPlaceholder] + pattern
    // Otherwise it is the text after the first ';', up to the next ';' or the end.
    ensures negative && PatternSeparator in pattern ==>
      var k := IndexOf(pattern, PatternSeparator) + 1;
      && r <= pattern[k..] && PatternSeparator !in r
      && (k + |r| == |pattern| || pattern[k + |r|] == PatternSeparator)
  {
    var patterns := Split(pattern, PatternSeparator);
    SplitFirst(pattern, PatternSeparator, patterns);
    if negative then
      if |patterns| == 1 then [MinusPlaceholder] + patterns[0]
      else
        SplitSecond(pattern, PatternSeparator, patterns);
        patterns[1]
    else patterns[0]
  }

  /** A pattern read as a sequence of literal characters and slots. */
  datatype Segment = Literal(c: char) | NumberSlot | CurrencySlot | PlusSlot | MinusSlot

  /** Reads a pattern left to right; at each position at most one placeholder
      can start, since none is a prefix of another. */
  function Tokenize(p: string): (segs: seq<Segment>)
    ensures forall i :: 0 <= i < |segs| && segs[i].Literal? ==>
      segs[i].c !in {CurrencyPlaceholder, PlusPlaceholder, MinusPlaceholder}
    decreases |p|
  {
    if |p| == 0 then []
    else if NumberPlaceholder <= p then [NumberSlot] + Tokenize(p[|NumberPlaceholder|..])
    else if p[0] == CurrencyPlaceholder then [CurrencySlot] + Tokenize(p[1..])
    else if p[0] == PlusPlaceholder then [PlusSlot] + Tokenize(p[1..])
    else if p[0] == MinusPlaceholder then [MinusSlot] + Tokenize(p[1..])
    else [Literal(p[0])] + Tokenize(p[1..])
  }

  /** The scan is leftmost: a pattern that starts with "0.00" is read as the
      number slot first, and reading resumes after it. */
  lemma NumberPlaceholderFirst(p: string)
    requires NumberPlaceholder <= p
    ensures Tokenize(p)[0] == NumberSlot && Tokenize(p)[1..] == Tokenize(p[4..])
  {
  }

  /** The pattern text one segment stands for. */
  function SegmentText(seg: Segment): string {
    match seg
    case Literal(c) => [c]
    case NumberSlot => NumberPlaceholder
    case CurrencySlot => [CurrencyPlaceholder]
    case PlusSlot => [PlusPlaceholder]
    case MinusSlot => [MinusPlaceholder]
  }

  /** Writes segments back as pattern text. */
  function Untokenize(segs: seq<Segment>): (p: string) {
    if |segs| == 0 then [] else SegmentText(segs[0]) + Untokenize(segs[1..])
  }

  /** Reading a pattern loses nothing. */
  lemma {:induction false} UntokenizeTokenize(p: string)
    ensures Untokenize(Tokenize(p)) == p
    decreases |p|
  {
    if |p| > 0 {
      if NumberPlaceholder <= p {
        UntokenizeNumberStep(p);
        UntokenizeTokenize(p[4..]);
        assert p == p[..4] + p[4..];
      } else {
        UntokenizeCharStep(p);
        UntokenizeTokenize(p[1..]);
        assert p == [p[0]] + p[1..];
      }
    }
  }

  /** Writing back a leading number slot gives "0.00" before the rest. */
  lemma UntokenizeNumberStep(p: string)
    requires NumberPlaceholder <= p
    ensures Untokenize(Tokenize(p)) == NumberPlaceholder + Untokenize(Tokenize(p[4..]))
  {
    var segs := Tokenize(p);
    assert segs == [NumberSlot] + Tokenize(p[4..]);
    assert segs[1..] == Tokenize(p[4..]);
  }

  /** Writing back any other leading segment gives the pattern's first
      character before the rest. */
  lemma UntokenizeCharStep(p: string)
    requires |p| > 0 && !(NumberPlaceholder <= p)
    ensures Untokenize(Tokenize(p)) == [p[0]] + Untokenize(Tokenize(p[1..]))
  {
    var segs := Tokenize(p);
    assert segs[1..] == Tokenize(p[1..]);
    assert SegmentText(segs[0]) == [p[0]] by {
      if p[0] == CurrencyPlaceholder {
        assert segs[0] == CurrencySlot;
      } else if p[0] == PlusPlaceholder {
        assert segs[0] == PlusSlot;
      } else if p[0] == MinusPlaceholder {
        assert segs[0] == MinusSlot;
      } else {
        assert segs[0] == Literal(p[0]);
      }
    }
  }

  /** The first segment read from a literal character stands for that one
      character; the rest is read from the next position. */
  lemma LiteralHead(p: string)
    requires |Tokenize(p)| > 0 && Tokenize(p)[0].Literal?
    ensures |p| > 0 && p[0] == Tokenize(p)[0].c && Tokenize(p)[1..] == Tokenize(p[1..])
  {
  }

  /** Every "0.00" is read as the number slot: no four consecutive literal
      segments spell it. */
  lemma {:induction false} NumberPlaceholderIsSlot(p: string)
    ensures var segs := Tokenize(p);
      forall i :: 0 <= i && i + 3 < |segs| ==>
        !(segs[i] == Literal('0') && segs[i + 1] == Literal('.') && segs[i + 2] == Literal('0') && segs[i + 3] == Literal('0'))
    decreases |p|
  {
    var segs := Tokenize(p);
    if |segs| > 0 {
      var tail := if NumberPlaceholder <= p then p[4..] else p[1..];
      assert segs[1..] == Tokenize(tail);
      NumberPlaceholderIsSlot(tail);
      forall i | 0 <= i && i + 3 < |segs|
        ensures !(segs[i] == Literal('0') && segs[i + 1] == Literal('.') && segs[i + 2] == Literal('0') && segs[i + 3] == Literal('0'))
      {
        if i > 0 {
          assert segs[i] == Tokenize(tail)[i - 1] && segs[i + 3] == Tokenize(tail)[i + 2];
          assert segs[i + 1] == Tokenize(tail)[i] && segs[i + 2] == Tokenize(tail)[i + 1];
        } else {
          NoLiteralPlaceholderAtHead(p);
        }
      }
    }
  }

  /** The first four segments never spell "0.00" as literals. */
  lemma NoLiteralPlaceholderAtHead(p: string)
    requires |Tokenize(p)| > 3
    ensures var segs := Tokenize(p);
      !(segs[0] == Literal('0') && segs[1] == Literal('.') && segs[2] == Literal('0') && segs[3] == Literal('0'))
  {
    var segs := Tokenize(p);
    if segs[0] == Literal('0') && segs[1] == Literal('.') && segs[2] == Literal('0') && segs[3] == Literal('0') {
      LiteralHead(p);
      LiteralHead(p[1..]);
      LiteralHead(p[2..]);
      LiteralHead(p[3..]);
      assert false;
    }
  }

  /** Writes the segments with each slot replaced by its text. */
  function Fill(segs: seq<Segment>, number: string, currency: string, plus: string, minus: string): (r: string) {
    if |segs| == 0 then []
    else
      var head := match segs[0]
        case Literal(c) => [c]
        case NumberSlot => number
        case CurrencySlot => currency
        case PlusSlot => plus
        case MinusSlot => minus;
      head + Fill(segs[1..], number, currency, plus, minus)
  }

  /** The placeholder substitution of Format: a single left-to-right pass in
      which replacement text is emitted and never scanned again. It equals
      filling the slots of the tokenized pattern, so every replacement text
      appears verbatim, whatever placeholders it contains. */
  function Substitute(p: string, number: string, currency: string, plus: string, minus: string): (r: string)
    ensures r == Fill(Tokenize(p), number, currency, plus, minus)
    decreases |p|
  {
    if |p| == 0 then []
    else if NumberPlaceholder <= p then number + Substitute(p[|NumberPlaceholder|..], number, currency, plus, minus)
    else if p[0] == CurrencyPlaceholder then currency + Substitute(p[1..], number, currency, plus, minus)
    else if p[0] == PlusPlaceholder then plus + Substitute(p[1..], number, currency, plus, minus)
    else if p[0] == MinusPlaceholder then minus + Substitute(p[1..], number, currency, plus, minus)
    else [p[0]] + Substitute(p[1..], number, currency, plus, minus)
  }

  /** A pattern without placeholders is left as it is. */
  lemma {:induction false} SubstituteLiteral(p: string, number: string, currency: string, plus: string, minus: string)
    requires forall i :: 0 <= i < |p| ==> p[i] !in {CurrencyPlaceholder, PlusPlaceholder, MinusPlaceholder, '0'}
    ensures Substitute(p, number, currency, plus, minus) == p
    decreases |p|
  {
    if |p| > 0 {
      assert p[0] != NumberPlaceholder[0];
      SubstituteLiteral(p[1..], number, currency, plus, minus);
    }
  }

  /** The text one replacer step emits for the character at the front. */
  function StepText(c: char, number: string, currency: string, plus: string, minus: string): (r: string) {
    if c == CurrencyPlaceholder then currency
    else if c == PlusPlaceholder then plus
    else if c == MinusPlaceholder then minus
    else [c]
  }

  /** One step of the scan at position i: a "0.00" fills in the number and
      moves four characters on, anything else fills in its text and moves
      one on. */
  lemma FillStep(p: string, i: nat, number: string, currency: string, plus: string, minus: string)
    requires i < |p|
    ensures NumberPlaceholder <= p[i..] ==>
      && i + 4 <= |p|
      && Fill(Tokenize(p[i..]), number, currency, plus, minus)
        == number + Fill(Tokenize(p[i + 4..]), number, currency, plus, minus)
    ensures !(NumberPlaceholder <= p[i..]) ==>
      Fill(Tokenize(p[i..]), number, currency, plus, minus)
        == StepText(p[i], number, currency, plus, minus) + Fill(Tokenize(p[i + 1..]), number, currency, plus, minus)
  {
    var rest := p[i..];
    var segs := Tokenize(rest);
    if NumberPlaceholder <= rest {
      assert rest[4..] == p[i + 4..];
      assert segs == [NumberSlot] + Tokenize(p[i + 4..]);
    } else {
      assert rest[1..] == p[i + 1..];
      assert segs[1..] == Tokenize(p[i + 1..]);
    }
  }

  /** The text one replacer step at position i emits, and how far it moves. */
  function StepPiece(p: string, i: nat, number: string, currency: string, plus: string, minus: string): (r: string)
    requires i < |p|
  {
    if NumberPlaceholder <= p[i..] then number else StepText(p[i], number, currency, plus, minus)
  }

  function StepWidth(p: string, i: nat): (w: nat)
    requires i < |p|
    ensures 0 < w && i + w <= |p|
  {
    if NumberPlaceholder <= p[i..] then |NumberPlaceholder| else 1
  }

  /** One replacer step keeps `out` a filled prefix of the pattern. */
  lemma ReplaceStep(p: string, i: nat, out: string, number: string, currency: string, plus: string, minus: string)
    requires i < |p|
    requires out + Fill(Tokenize(p[i..]), number, currency, plus, minus) == Fill(Tokenize(p), number, currency, plus, minus)
    ensures (out + StepPiece(p, i, number, currency, plus, minus))
      + Fill(Tokenize(p[i + StepWidth(p, i)..]), number, currency, plus, minus)
      == Fill(Tokenize(p), number, currency, plus, minus)
  {
    FillStep(p, i, number, currency, plus, minus);
  }

  /** strings.Replacer.Replace as a loop: `out` holds the filled prefix. */
  method Replace(p: string, number: string, currency: string, plus: string, minus: string) returns (out: string)
    ensures out == Fill(Tokenize(p), number, currency, plus, minus)
  {
    out := [];
    var i := 0;
    while i < |p|
      invariant 0 <= i <= |p|
      invariant out + Fill(Tokenize(p[i..]), number, currency, plus, minus) == Fill(Tokenize(p), number, currency, plus, minus)
      decreases |p| - i
    {
      ReplaceStep(p, i, out, number, currency, plus, minus);
      out := out + StepPiece(p, i, number, currency, plus, minus);
      i := i + StepWidth(p, i);
    }
    assert p[i..] == [];
  }
}

=== FILE: scenarios.dfy ===
/** Concrete renderings with an "en"-like rule set and a USD amount. */
module Scenarios {
  import opened Strings
  import opened Types
  import opened Pattern
  import Grouping
  import opened NumberFormat
  import opened CurrencyFormatter

  const EnRules: CurrencyFormat := CurrencyFormat("¤0.00", Latn, 1, 3, 3, ".", ",", "+", "-")

  const Usd: Collaborators := Collaborators(_ => 2, (_, _) => "$", c => c == ' ')


  /** Trimming and padding of the fraction with explicit bounds. */
  lemma FractionScenarios()
    ensures FractionDigits("00", 0, 2) == []
    ensures FractionDigits("50", 0, 2) == "5"
    ensures FractionDigits("500000", 2, 6) == "50"
    ensures FractionDigits("5", 4, 2) == "5"
  {
    TrimScenarios();
    assert FractionDigits("500000", 2, 6) == "5" + Zeros(1);
  }

  lemma TrimScenarios()
    ensures TrimTrailingZeros("00") == []
    ensures TrimTrailingZeros("50") == "5"
    ensures TrimTrailingZeros("500000") == "5"
  {
    assert "00"[..1] == "0" && "0"[..0] == [];
    assert "50"[..1] == "5";
    assert "500000"[..5] == "50000" && "50000"[..4] == "5000" && "5000"[..3] == "500";
    assert "500"[..2] == "50" && "50"[..1] == "5";
  }

  lemma SplitScenario()
    ensures IntegerPart("1234.500000") == "1234"
    ensures FractionPart("1234.500000") == "500000"
  {
    SplitUnique("1234.500000", '.', ["1234", "500000"]);
  }

  lemma GroupScenario()
    ensures Grouping.GroupMajorDigits(false, EnRules, "1234") == "1,234"
  {
    assert "1234"[..1] == "1" && "1234"[1..] == "234";
    assert Grouping.SecondaryGroups("1", 3) == ["1"];
    assert Grouping.Groups("1234", 3, 3) == ["1", "234"];
  }

  lemma TextScenario()
    ensures NumberText("1,234", "50", ".") == "1,234.50"
  {
    assert "1,234" + "." + "50" == "1,234.50";
  }

  /** Options as NewFormatter leaves them, over the "en" rule set. */
  predicate DefaultEn(f: Formatter) {
    f.format == EnRules && !f.noGrouping && f.minDigits == DefaultDigits && f.maxDigits == 6
  }

  /** The number text of 1234.5 in a two-digit currency under the default
      options: rounded to six digits, trimmed, padded back to two. */
  lemma DefaultNumber(f: Formatter, number: Byte -> string)
    requires DefaultEn(f) && number(6) == "1234.500000"
    ensures Formattable(f, 2, number)
    ensures FormatNumber(f, 2, number) == "1,234.50"
  {
    assert EffectiveDigits(f.minDigits, 2) == 2;
    assert EffectiveDigits(f.maxDigits, 2) == 6;
    SplitScenario();
    GroupScenario();
    assert FractionDigits("500000", 2, 6) == "50" by {
      FractionScenarios();
    }
    TextScenario();
  }

  /** "¤0.00" has a single sub-pattern. */
  lemma EnPositivePattern()
    ensures GetPattern(EnRules.pattern, false) == "¤0.00"
  {
    assert PatternSeparator !in "¤0.00";
    SplitFirst("¤0.00", PatternSeparator, Split("¤0.00", PatternSeparator));
  }

  /** A pattern made of the currency placeholder and then the number
      placeholder renders the currency text followed by the number text. */
  lemma CurrencyThenNumber(p: string, number: string, currency: string, plus: string, minus: string)
    requires |p| == 5 && p[0] == CurrencyPlaceholder && p[1..] == NumberPlaceholder
    ensures Substitute(p, number, currency, plus, minus) == currency + number
  {
    var q := p[1..];
    assert NumberPlaceholder <= q && q[4..] == [];
    assert Substitute(q, number, currency, plus, minus) == number + Substitute(q[4..], number, currency, plus, minus);
    assert !(NumberPlaceholder <= p);
  }

  /** The "en" pattern puts the currency before the number. */
  lemma EnPattern(number: string, currency: string)
    ensures Substitute(GetPattern(EnRules.pattern, false), number, currency, "+", "-") == currency + number
  {
    EnPositivePattern();
    CurrencyThenNumber(GetPattern(EnRules.pattern, false), number, currency, "+", "-");
  }

  /** The "en" rule set renders a non-negative amount as currency then number. */
  lemma EnRendering(f: Formatter, a: Amount)
    requires f.format == EnRules && !a.negative
    requires CanFormat(f, Usd, a) && AmountCurrency(f, Usd, a) != []
    ensures Format(f, Usd, a) == AmountCurrency(f, Usd, a) + AmountNumber(f, Usd, a)
  {
    EnPattern(AmountNumber(f, Usd, a), AmountCurrency(f, Usd, a));
  }

  lemma LiteralJoins()
    ensures "$" + "1,234.50" == "$1,234.50"
    ensures "USD" + "1,234.50" == "USD1,234.50"
  {
  }

  /** 1234.5 USD with default options gives "$1,234.50", and "USD1,234.50"
      with code display. */
  lemma DefaultRendering(f: Formatter, a: Amount)
    requires DefaultEn(f) && f.currencyDisplay in {DisplaySymbol, DisplayCode}
    requires !a.negative && a.currencyCode == "USD" && a.number(6) == "1234.500000"
    ensures CanFormat(f, Usd, a)
    ensures f.currencyDisplay == DisplaySymbol && "USD" !in f.symbolMap ==> Format(f, Usd, a) == "$1,234.50"
    ensures f.currencyDisplay == DisplayCode ==> Format(f, Usd, a) == "USD1,234.50"
  {
    DefaultNumber(f, a.number);
    assert AmountNumber(f, Usd, a) == "1,234.50";
    if f.currencyDisplay == DisplayCode {
      assert AmountCurrency(f, Usd, a) == "USD";
      EnRendering(f, a);
      LiteralJoins();
    } else if "USD" !in f.symbolMap {
      assert AmountCurrency(f, Usd, a) == "$";
      EnRendering(f, a);
      LiteralJoins();
    }
  }
}

=== FILE: strings.dfy ===
/** String helpers: the parts of Go's `strings` package the formatter uses
    (Split, Join, TrimRight, Repeat, TrimSpace), each characterised by what it
    computes, plus the digit predicates the properties are stated with. */
module Strings {

  predicate IsAsciiDigit(c: char) {
    '0' <= c <= '9'
  }

  predicate AllDigits(s: string) {
    forall i :: 0 <= i < |s| ==> IsAsciiDigit(s[i])
  }

  predicate NoDigits(s: string) {
    forall i :: 0 <= i < |s| ==> !IsAsciiDigit(s[i])
  }

  function Max(a: int, b: int): (m: int) {
    if a < b then b else a
  }

  /** The concatenation of all parts, in order. */
  function Concat(parts: seq<string>): (r: string) {
    if |parts| == 0 then [] else parts[0] + Concat(parts[1..])
  }

  lemma {:induction false} ConcatAppend(parts: seq<string>, last: string)
    ensures Concat(parts + [last]) == Concat(parts) + last
    decreases |parts|
  {
    if |parts| == 0 {
      assert parts + [last] == [last];
    } else {
      assert (parts + [last])[1..] == parts[1..] + [last];
      ConcatAppend(parts[1..], last);
    }
  }

  /** Every part of an all-digit concatenation is all digits. */
  lemma {:induction false} ConcatAllDigits(parts: seq<string>)
    requires AllDigits(Concat(parts))
    ensures forall i :: 0 <= i < |parts| ==> AllDigits(parts[i])
    decreases |parts|
  {
    if |parts| > 0 {
      var c := Concat(parts);
      assert forall k :: 0 <= k < |parts[0]| ==> parts[0][k] == c[k];
      assert forall k :: 0 <= k < |c| - |parts[0]| ==> Concat(parts[1..])[k] == c[|parts[0]| + k];
      ConcatAllDigits(parts[1..]);
      assert forall i :: 1 <= i < |parts| ==> parts[i] == parts[1..][i - 1];
    }
  }

  /** strings.Join: the parts with `sep` between neighbours. The result
      starts with the first part and ends with the last; with an empty
      separator it is the plain concatenation. */
  function Join(parts: seq<string>, sep: string): (r: string)
    ensures |parts| == 0 ==> r == []
    ensures |parts| > 0 ==> parts[0] <= r
    ensures sep == [] ==> r == Concat(parts)
    decreases |parts|
  {
    if |parts| == 0 then []
    else if |parts| == 1 then
      assert Concat(parts) == parts[0] + Concat([]);
      parts[0]
    else
      var rest := Join(parts[1..], sep);
      assert Concat(parts) == parts[0] + Concat(parts[1..]);
      assert parts[0] <= parts[0] + (sep + rest);
      parts[0] + (sep + rest)
  }

  /** Every part after the first, each preceded by the separator. */
  function SeparatedTail(parts: seq<string>, sep: string): (t: seq<string>)
    requires |parts| > 0
    ensures |t| == |parts| - 1
    ensures forall i :: 0 <= i < |t| ==> t[i] == sep + parts[i + 1]
  {
    seq(|parts| - 1, i requires 0 <= i < |parts| - 1 => sep + parts[i + 1])
  }

  /** Join puts the separator between every two neighbouring parts: the
      first part, then each later part preceded by the separator. */
  lemma {:induction false} JoinSeparated(parts: seq<string>, sep: string)
    requires |parts| > 0
    ensures Join(parts, sep) == parts[0] + Concat(SeparatedTail(parts, sep))
    decreases |parts|
  {
    var t := SeparatedTail(parts, sep);
    if |parts| == 1 {
      assert t == [];
    } else {
      JoinSeparated(parts[1..], sep);
      var t' := SeparatedTail(parts[1..], sep);
      assert t == [sep + parts[1]] + t';
      assert t[1..] == t';
      assert Concat(t) == (sep + parts[1]) + Concat(t');
    }
  }

  /** The joined text is the parts plus one separator per neighbouring pair. */
  lemma {:induction false} JoinLength(parts: seq<string>, sep: string)
    requires |parts| > 0
    ensures |Join(parts, sep)| == |Concat(parts)| + (|parts| - 1) * |sep|
    decreases |parts|
  {
    if |parts| > 1 {
      JoinLength(parts[1..], sep);
      assert Concat(parts) == parts[0] + Concat(parts[1..]);
      assert (|parts| - 1) * |sep| == (|parts| - 2) * |sep| + |sep|;
    }
  }

  /** Index of the first occurrence of `c` in `s`. */
  function IndexOf(s: string, c: char): (k: nat)
    requires c in s
    ensures k < |s| && s[k] == c
    ensures c !in s[..k]
  {
    if s[0] == c then 0
    else
      var k := 1 + IndexOf(s[1..], c);
      assert s[..k] == [s[0]] + s[1..][..k - 1];
      k
  }

  /** strings.Split with a one-character separator: the maximal pieces of `s`
      that do not contain `c`, which joined by `c` give back `s`. */
  function Split(s: string, c: char): (parts: seq<string>)
    ensures |parts| >= 1
    ensures Join(parts, [c]) == s
    ensures forall i :: 0 <= i < |parts| ==> c !in parts[i]
    decreases |s|
  {
    if c !in s then [s]
    else
      var k := IndexOf(s, c);
      var rest := Split(s[k + 1..], c);
      var parts := [s[..k]] + rest;
      assert parts[0] == s[..k] && parts[1..] == rest;
      assert Join(parts, [c]) == s[..k] + ([c] + s[k + 1..]);
      assert s == s[..k] + ([c] + s[k + 1..]);
      parts
  }

  /** The split is the only decomposition with those two properties. */
  lemma {:induction false} SplitUnique(s: string, c: char, parts: seq<string>)
    requires |parts| >= 1
    requires Join(parts, [c]) == s
    requires forall i :: 0 <= i < |parts| ==> c !in parts[i]
    ensures parts == Split(s, c)
    decreases |parts|
  {
    if |parts| == 1 {
      assert s == parts[0];
    } else {
      var rest := Join(parts[1..], [c]);
      assert s == parts[0] + [c] + rest;
      assert s[|parts[0]|] == c;
      assert s[..|parts[0]|] == parts[0];
      assert c in s;
      var k := IndexOf(s, c);
      assert k == |parts[0]|;
      assert s[k + 1..] == rest;
      SplitUnique(rest, c, parts[1..]);
      assert parts == [parts[0]] + parts[1..];
    }
  }

  /** The first piece of a split is the text before the first separator,
      and the other pieces joined give the text after it. */
  lemma SplitFirst(s: string, c: char, parts: seq<string>)
    requires parts == Split(s, c)
    ensures parts[0] <= s && c !in parts[0]
    ensures |parts| == 1 <==> c !in s
    ensures |parts| == 1 ==> parts[0] == s
    ensures |parts| > 1 ==>
      && |parts[0]| == IndexOf(s, c)
      && Join(parts[1..], [c]) == s[|parts[0]| + 1..]
  {
    if |parts| > 1 {
      var rest := Join(parts[1..], [c]);
      assert s == parts[0] + [c] + rest;
      assert s[|parts[0]|] == c;
      assert s[..|parts[0]|] == parts[0];
      assert s[|parts[0]| + 1..] == rest;
    }
  }

  /** The second piece of a split is the text after the first separator, up
      to the next separator or the end. */
  lemma SplitSecond(s: string, c: char, parts: seq<string>)
    requires parts == Split(s, c) && |parts| > 1
    ensures c in s
    ensures var k := IndexOf(s, c) + 1;
      && parts[1] <= s[k..] && c !in parts[1]
      && (k + |parts[1]| == |s| || s[k + |parts[1]|] == c)
  {
    SplitFirst(s, c, parts);
    var k := IndexOf(s, c) + 1;
    SplitUnique(s[k..], c, parts[1..]);
    SplitFirst(s[k..], c, parts[1..]);
  }

  /** strings.TrimRight(s, "0"): the longest prefix of `s` not ending in '0'
      such that everything cut off is '0'. */
  function TrimTrailingZeros(s: string): (t: string)
    ensures t <= s
    ensures forall i :: |t| <= i < |s| ==> s[i] == '0'
    ensures t == [] || t[|t| - 1] != '0'
    decreases |s|
  {
    if |s| == 0 || s[|s| - 1] != '0' then s
    else TrimTrailingZeros(s[..|s| - 1])
  }

  /** strings.Repeat("0", n). */
  function Zeros(n: nat): (z: string)
    ensures |z| == n
    ensures forall i :: 0 <= i < n ==> z[i] == '0'
  {
    seq(n, _ => '0')
  }

  /** The number of leading space characters of `s`. */
  function LeadingSpaces(s: string, isSpace: char -> bool): (n: nat)
    ensures n <= |s|
    ensures forall k :: 0 <= k < n ==> isSpace(s[k])
    ensures n == |s| || !isSpace(s[n])
    decreases |s|
  {
    if |s| > 0 && isSpace(s[0]) then 1 + LeadingSpaces(s[1..], isSpace) else 0
  }

  /** The number of trailing space characters of `s`. */
  function TrailingSpaces(s: string, isSpace: char -> bool): (n: nat)
    ensures n <= |s|
    ensures forall k :: |s| - n <= k < |s| ==> isSpace(s[k])
    ensures n == |s| || !isSpace(s[|s| - 1 - n])
    decreases |s|
  {
    if |s| > 0 && isSpace(s[|s| - 1]) then 1 + TrailingSpaces(s[..|s| - 1], isSpace) else 0
  }

  predicate NoSpaceEnds(s: string, isSpace: char -> bool) {
    s == [] || (!isSpace(s[0]) && !isSpace(s[|s| - 1]))
  }

  /** strings.TrimSpace with an abstract space predicate: drop the leading
      space characters, then the trailing ones of what is left, and nothing
      else. */
  function TrimSpace(s: string, isSpace: char -> bool): (r: string)
    ensures NoSpaceEnds(r, isSpace)
    ensures |r| <= |s|
    ensures NoSpaceEnds(s, isSpace) ==> r == s
  {
    var i := LeadingSpaces(s, isSpace);
    var t := TrailingSpaces(s[i..], isSpace);
    var r := s[i..|s| - t];
    assert r != [] ==> r[0] == s[i] && r[|r| - 1] == s[i..][|s| - i - 1 - t];
    r
  }

  /** TrimSpace removes only space characters, and only at the two ends: the
      result is the text of `s` after its leading spaces, and only spaces
      follow it in `s`. */
  lemma TrimSpaceOnlyEnds(s: string, isSpace: char -> bool)
    ensures var r := TrimSpace(s, isSpace);
      var i := LeadingSpaces(s, isSpace);
      && i + |r| <= |s| && r == s[i..i + |r|]
      && (forall k :: i + |r| <= k < |s| ==> isSpace(s[k]))
  {
    var i := LeadingSpaces(s, isSpace);
    var t := TrailingSpaces(s[i..], isSpace);
    assert TrimSpace(s, isSpace) == s[i..|s| - t];
    SpacesAround(s, i, isSpace);
  }

  /** Dropping i characters from the front of `s` and then the trailing
      spaces of what is left leaves only spaces after the rest. */
  lemma SpacesAround(s: string, i: nat, isSpace: char -> bool)
    requires i <= |s|
    ensures var t := TrailingSpaces(s[i..], isSpace);
      i + t <= |s| && forall k :: |s| - t <= k < |s| ==> isSpace(s[k])
  {
    var l := s[i..];
    var t := TrailingSpaces(l, isSpace);
    forall k | |s| - t <= k < |s|
      ensures isSpace(s[k])
    {
      assert s[k] == l[k - i];
    }
  }

  /** Removes every non-overlapping occurrence of `sep`, scanning left to
      right (strings.ReplaceAll(s, sep, "") for a non-empty `sep`). */
  function RemoveAll(s: string, sep: string): (r: string)
    decreases |s|
  {
    if |sep| == 0 || |s| == 0 then s
    else if sep <= s then RemoveAll(s[|sep|..], sep)
    else [s[0]] + RemoveAll(s[1..], sep)
  }

  /** A leading run of digits survives removal of a digit-free separator. */
  lemma {:induction false} RemoveAllDigitPrefix(g: string, t: string, sep: string)
    requires AllDigits(g) && NoDigits(sep)
    ensures RemoveAll(g + t, sep) == g + RemoveAll(t, sep)
    decreases |g|
  {
    if |sep| == 0 || |g| == 0 {
      assert g + t == t || |sep| == 0;
    } else {
      assert (g + t)[0] == g[0];
      assert !(sep <= g + t) by {
        assert !IsAsciiDigit(sep[0]);
      }
      assert (g + t)[1..] == g[1..] + t;
      RemoveAllDigitPrefix(g[1..], t, sep);
    }
  }

  /** Only the ASCII digits of `s`, in order. */
  function KeepDigits(s: string): (r: string)
    ensures AllDigits(r)
    ensures |r| <= |s|
  {
    if |s| == 0 then []
    else if IsAsciiDigit(s[0]) then [s[0]] + KeepDigits(s[1..])
    else KeepDigits(s[1..])
  }

  lemma {:induction false} KeepDigitsAppend(a: string, b: string)
    ensures KeepDigits(a + b) == KeepDigits(a) + KeepDigits(b)
    decreases |a|
  {
    if |a| == 0 {
      assert a + b == b;
    } else {
      assert (a + b)[1..] == a[1..] + b;
      KeepDigitsAppend(a[1..], b);
    }
  }

  lemma {:induction false} KeepDigitsOfDigits(s: string)
    requires AllDigits(s)
    ensures KeepDigits(s) == s
    decreases |s|
  {
    if |s| > 0 {
      KeepDigitsOfDigits(s[1..]);
    }
  }

  lemma {:induction false} KeepDigitsOfNoDigits(s: string)
    requires NoDigits(s)
    ensures KeepDigits(s) == []
    decreases |s|
  {
    if |s| > 0 {
      KeepDigitsOfNoDigits(s[1..]);
    }
  }
}

=== FILE: types.dfy ===
/** The formatter's records: the per-locale rule set, the formatter's
    configuration, the amount as the formatter sees it, and the collaborators
    it consults (currency metadata and the space predicate of TrimSpace). */
module Types {

  /** Go's uint8, used for digit counts, group sizes and the display mode. */
  type Byte = x: int | 0 <= x < 256

  /** Sentinel meaning "use the currency's default number of fraction digits". */
  const DefaultDigits: Byte := 255

  /** Go's `Display uint8`: any byte value is representable, three are named. */
  type Display = Byte

  const DisplaySymbol: Display := 0
  const DisplayCode: Display := 1
  const DisplayNone: Display := 2

  /** The numbering systems the rule sets name: Latin digits, and the six
      systems that have a glyph table. */
  datatype NumberingSystem = Latn | Arab | ArabExt | Beng | Deva | Mymr | Tibt

  datatype Locale = Locale(language: string, region: string)

  /** A locale's immutable formatting rule set. */
  datatype CurrencyFormat = CurrencyFormat(
    pattern: string,
    numberingSystem: NumberingSystem,
    minGroupingDigits: Byte,
    primaryGroupingSize: Byte,
    secondaryGroupingSize: Byte,
    decimalSeparator: string,
    groupingSeparator: string,
    plusSign: string,
    minusSign: string)

  /** The formatter: requested locale, resolved rule set, and the
      caller-adjustable options. */
  datatype Formatter = Formatter(
    locale: Locale,
    format: CurrencyFormat,
    noGrouping: bool,
    minDigits: Byte,
    maxDigits: Byte,
    currencyDisplay: Display,
    symbolMap: map<string, string>)

  /** An amount as the formatter consumes it: its sign, its currency code, and
      `number(n)`, the decimal string ("digits" or "digits.digits") of its
      absolute value rounded to `n` fraction digits. */
  datatype Amount = Amount(negative: bool, currencyCode: string, number: Byte -> string)

  /** Multiplying by -1 flips the sign; code and magnitude stay. */
  function Negate(a: Amount): (b: Amount)
    ensures b.negative != a.negative
    ensures b.currencyCode == a.currencyCode && b.number == a.number
  {
    a.(negative := !a.negative)
  }

  /** Lookups the formatter delegates: the currency's default fraction digits,
      the locale's symbol for a code, and the whitespace test used when
      trimming. */
  datatype Collaborators = Collaborators(
    digitsOf: string -> Byte,
    symbolOf: (string, Locale) -> string,
    isSpace: char -> bool)
}
